=== FILE: README.md ===
# Spotify churn dashboard: load, filter and aggregate

The dashboard is a single Streamlit script, `dashboard.py`. It loads a churn
dataset into a pandas data frame and cleans it up. The user narrows the data
by country, gender and subscription type in the sidebar. The script then shows
three metric cards and two bar charts of churn rates over the rows that
remain. This project models that pipeline in Dafny and proves its laws.

- **Loader** (`loader.dfy`). The data frame is a class `Frame` with a header
  row and a sequence of rows. Its method `Clean` rewrites both in place, as
  lines 12-16 do. Every header is stripped, lower-cased and has its spaces
  turned into underscores. A churn column that holds text (pandas dtype
  `object`) is mapped `"Yes"` to 1 and `"No"` to 0. Any other cell becomes
  missing (NaN). A column without text is left as it is. A churn cell is
  text, a number or missing. A boolean column without blank cells is read as
  the numbers 1 and 0.
- **Filtering** (`filtering.dfy`). The sidebar defaults are `unique()` of each
  column: each value once, in order of first appearance. The mask of lines
  30-34 keeps a row when its three categorical values are in the three
  selected sets. The view is the kept rows in table order.
- **String order** (`string_order.dfy`). pandas' `groupby` sorts its keys by
  default. Python compares strings by code point, and a proper prefix comes
  first. This module defines that order and a sorted insertion.
- **Aggregation** (`aggregation.dfy`). The row count `len` counts every row
  of the view. `.sum()` and `.mean()` skip missing values, as pandas does. `groupby(field)["is_churned"].mean()`
  gives one rate per distinct key, in sorted order. A group whose churn values
  are all missing has a missing rate. Rates are exact `real` quotients.
- **Dashboard** (`dashboard.dfy`). `Render` runs one pass of the script over
  a loaded table and a selection. The page has the row count and the view.
  It also has either the report (metrics and both rate tables) or `None`,
  which stands for the "No data available" warning.

Three behaviours of the code that the model keeps as written:

- A churn text other than "Yes" or "No" is not rejected. `.map` turns it into
  NaN, so the model makes it missing.
- A numeric or boolean churn column passes through unchanged. It is not forced
  into {0, 1}. The bounds on totals and rates therefore assume binary churn
  values (`BinaryChurn`). That always holds after a textual column is coerced.
- Group keys are reported in sorted order, the pandas default.

## Model

| member | source | states |
|---|---|---|
| `Loader.Strip` | dashboard.py:12 | `str.strip()` gives a contiguous slice of the input, no longer than it, that neither starts nor ends with whitespace (Python's ASCII whitespace); everything cut away on either side is whitespace |
| `Loader.StripSlices` | dashboard.py:12 | cutting a whitespace prefix and then a whitespace suffix leaves a slice with whitespace on both sides of it, and no whitespace at its start if none was left there |
| `Loader.StripLeading` | dashboard.py:12 | the result is a suffix of the input; everything cut off is whitespace; the result does not start with whitespace |
| `Loader.StripTrailing` | dashboard.py:12 | the result is a prefix of the input; everything cut off is whitespace; the result does not end with whitespace |
| `Loader.LowerChar` | dashboard.py:12 | one character of `str.lower()`: an upper-case ASCII letter becomes its own lower-case letter, the same distance past `a` as it was past `A`; every other character is kept |
| `Loader.Lower` | dashboard.py:12 | `str.lower()` keeps the length, turns each upper-case ASCII letter into its own lower-case letter in place, keeps every other character, and leaves no upper-case letter |
| `Loader.ReplaceSpaces` | dashboard.py:12 | `str.replace(" ", "_")` keeps the length, turns each space into an underscore in place, keeps every other character, and leaves no space |
| `Loader.NormaliseName` | dashboard.py:12 | a normalised header has no surrounding whitespace, no space and no upper-case letter |
| `Loader.NormaliseColumns` | dashboard.py:12 | every header of the row is normalised, position by position |
| `Loader.NormalNameIsFixed` | dashboard.py:12 | a header that is already normal comes out unchanged |
| `Loader.NormaliseIdempotent` | dashboard.py:12 | normalising a header twice equals normalising it once |
| `Loader.FixedPointsAreNormal` | dashboard.py:12 | a header is left unchanged by normalisation if and only if it is normal |
| `Loader.NormaliseColumnsIdempotent` | dashboard.py:12 | normalising the whole header row twice equals normalising it once |
| `Loader.YesNo` | dashboard.py:16 | the mapping `{"Yes": 1, "No": 0}` on one cell: 1 exactly for the text "Yes", 0 exactly for the text "No", and missing for every other cell |
| `Loader.ChurnHeaderNormalises` | dashboard.py:12-15 | the header "Is Churned" normalises to `is_churned`, the column the script looks up |
| `Loader.LowerChurnHeader` | dashboard.py:12 | `"Is Churned".lower()` is `"is churned"` |
| `Loader.ReplaceChurnHeader` | dashboard.py:12 | `"is churned".replace(" ", "_")` is `"is_churned"` |
| `Loader.CoerceChurn` | dashboard.py:15-16 | in a textual column a cell becomes 1 exactly when it is "Yes", 0 exactly when it is "No", and missing exactly otherwise; a column without text is returned unchanged |
| `Loader.CoerceChurnIdempotent` | dashboard.py:15-16 | coercing an already coerced column changes nothing |
| `Loader.CoercedRows` | dashboard.py:15-16 | after coercion no churn cell is text; a coerced textual column holds only 0, 1 or missing; a non-textual column leaves the rows unchanged |
| `Loader.Frame.constructor` | dashboard.py:9 | the frame holds the header row and rows it was given (the result of the file read) |
| `Loader.Frame.Clean` | dashboard.py:12-16 | the headers become their normalised forms; if none is `is_churned` the step fails with that missing column and the rows are untouched; otherwise each row's churn cell is replaced by its coerced value, every other field is kept, and no churn cell is text afterwards |
| `Filtering.Filter` | dashboard.py:30-34 | the view is no longer than the table and holds only rows of the table that pass the mask |
| `Filtering.FilterMultiplicity` | dashboard.py:30-34 | a row occurs in the view as often as in the table if it passes the mask, and never otherwise |
| `Filtering.FilterMembership` | dashboard.py:30-34 | a row is in the view if and only if it is in the table and its country, gender and subscription type are all selected |
| `Filtering.FilterIsSubsequence` | dashboard.py:30-34 | the view is an order-preserving subsequence of the table |
| `Filtering.FilterKeepsAll` | dashboard.py:30-34 | when every row passes the mask, the view is the whole table |
| `Filtering.FilterIdempotent` | dashboard.py:30-34 | filtering the view again with the same selection changes nothing |
| `Filtering.FilterMonotone` | dashboard.py:30-34 | enlarging any of the three selections never removes a row: the smaller view is a subsequence of the larger one |
| `Filtering.EmptySelectionEmptiesView` | dashboard.py:30-34 | an empty selection in any of the three fields gives an empty view |
| `Filtering.FirstIndex` | dashboard.py:25-27 | the position of the first occurrence of a value |
| `Filtering.Unique` | dashboard.py:25-27 | `unique()` holds exactly the values of the column, each once, in order of first appearance |
| `Filtering.Column` | dashboard.py:25-27 | `df[col]` lists the field's value of each row, in table order |
| `Filtering.DefaultSelection` | dashboard.py:25-27 | each default selection is the set of distinct values of its column in the full table |
| `Filtering.DefaultSelectionKeepsAll` | dashboard.py:25-34 | with the default selections the view equals the whole table |
| `StringOrder.BelowIrreflexive` | dashboard.py:54 | no string sorts before itself |
| `StringOrder.BelowTransitive` | dashboard.py:54 | the string order is transitive |
| `StringOrder.BelowTotal` | dashboard.py:54 | any two different strings are ordered one way or the other |
| `StringOrder.StrictlySortedDistinct` | dashboard.py:54 | strictly sorted keys are pairwise distinct |
| `StringOrder.Insert` | dashboard.py:54 | inserting a key into strictly sorted keys keeps them strictly sorted and adds exactly that key |
| `Aggregation.ChurnBounds` | dashboard.py:45 | on binary churn values `.sum()` equals the number of churned rows and lies between 0 and the number of present values, which is at most the number of rows |
| `Aggregation.TotalChurned` | dashboard.py:45 | on binary churn values `.sum()` of the churn column is the number of churned rows, between 0 and the number of rows |
| `Aggregation.AverageListeningTime` | dashboard.py:46 | the unrounded mean listening time lies between the smallest and the largest listening time of the view |
| `Aggregation.AverageWithinRange` | dashboard.py:46 | the unrounded mean listening time lies within any bounds that hold for every row |
| `Aggregation.Summarise` | dashboard.py:42-46 | total users is the view's length; on binary churn values total churned is the number of churned rows and lies between 0 and total users; the average listening time lies between the view's minimum and maximum |
| `Aggregation.Group` | dashboard.py:54 | a group holds every row of the view with that key, as many times as the view does, and no other row |
| `Aggregation.KeyedByMultiplicity` | dashboard.py:54 | a row occurs among the rows with selected keys as often as in the view if its key is selected, and never otherwise |
| `Aggregation.SortedKeys` | dashboard.py:54 | the group keys are strictly sorted and are exactly the distinct values of the grouping field in the view |
| `Aggregation.GroupNonEmpty` | dashboard.py:53-54 | every value present in the view has a non-empty group, so no rate divides by zero |
| `Aggregation.GroupRates` | dashboard.py:54 | one entry per distinct value of the field in the view, strictly sorted by key; each key's group is non-empty and its rate is that group's mean churn |
| `Aggregation.ChurnMean` | dashboard.py:54 | the NaN-skipping `.mean()` of a group's churn values is missing exactly when no value is present, and lies in [0, 1] on binary churn values |
| `Aggregation.NonePresent` | dashboard.py:54 | the count of present churn values is 0 exactly when every churn value is missing |
| `Aggregation.MeanInUnitInterval` | dashboard.py:54 | on binary churn values the sum of the present values over their count, when that count is not 0, lies in [0, 1] |
| `Aggregation.RateInUnitInterval` | dashboard.py:54 | on binary churn values every reported churn rate lies in [0, 1] |
| `Aggregation.RateIsChurnedOverSize` | dashboard.py:54 | with 0/1 churn values and none missing, a group's rate is its churned count over its size |
| `Aggregation.GroupsPartitionView` | dashboard.py:54 | any per-row quantity summed group by group equals its sum over the view |
| `Aggregation.GroupSizesSum` | dashboard.py:54 | the group sizes add up to the number of rows in the view |
| `Aggregation.GroupChurnSum` | dashboard.py:54 | the churned counts of the groups add up to the view's total churned |
| `Dashboard.Render` | dashboard.py:30-66 | the view is the filtered table, so each passing row appears as often as in the table and in table order; the row count is the view's length; the report is absent exactly when no row passes; a present report holds the view's metric cards and its rates grouped by subscription type and by device type |
| `Dashboard.DefaultPageShowsAll` | dashboard.py:25-46 | with the sidebar at its defaults a non-empty table is shown whole and its metrics cover every row |
| `Dashboard.PageRatesInUnitInterval` | dashboard.py:42-66 | on binary churn values every rate on the page lies in [0, 1] and total churned lies between 0 and total users |
| `Dashboard.TwoUsersEndToEnd` | dashboard.py:15-63 | two users whose churn column reads "Yes" and "No": coercion yields 1 and 0, and the page then shows 2 rows, 1 churned, mean listening time 3.0, rate 1.0 for Free and 0.0 for Premium |
| `Dashboard.TwoUsersAllSelected` | dashboard.py:30-63 | two users, everything selected: 2 rows, 1 churned, mean listening time 3.0, rate 1.0 for Free and 0.0 for Premium |
| `Dashboard.TwoUsersDefaults` | dashboard.py:25-27 | the defaults for the two users are their countries, genders and subscription types |
| `Dashboard.TwoUsersPremiumOnly` | dashboard.py:30-45 | only Premium selected: the Premium row alone, nobody churned |
| `Dashboard.TwoUsersNoMatch` | dashboard.py:42-48 | a selection no row matches yields no report |

## Left out

- `pd.read_csv` and the hard-coded file name (dashboard.py:9) are file I/O. The frame is built from a header row and rows already parsed, and columns other than `is_churned` arrive typed.
- The Streamlit calls are left out: title, headers, multiselect widgets, metric cards, bar charts, warning text and data-frame display. Only their inputs are modelled. A user's selection is any three sets of strings.
- The two seaborn scatter plots (dashboard.py:71-106) are presentation over a foreign library.
- `Aggregation.AverageListeningTime`: floating-point arithmetic and `round(..., 2)` (dashboard.py:46) are not modelled. The mean, and so `Summarise`'s `avgListeningTime`, is an exact `real` quotient, unrounded.
- `Loader.Lower`: only ASCII letters are lower-cased. Unicode case mapping is not modelled.
- `Loader.Strip`: whitespace is Python's `str.isspace` restricted to ASCII. Non-ASCII whitespace is not stripped.
- `Loader.Frame.Clean`: duplicate headers after normalisation are not modelled. pandas would then return a frame rather than a column, and the script would fail.
- `Dashboard.Render`: only the lookup of `is_churned` can fail. The other columns (`country`, `gender`, `subscription_type`, `listening_time`, `device_type`) are fields of every row, so the KeyError the script raises when one is missing is not modelled. `Render` requires a loaded table, one whose churn column holds no text. `Clean` establishes that.
- Missing values (NaN) in the categorical columns and in `listening_time` are not modelled. Missing values in the churn column are: `.sum()` skips them, and `.mean()` averages over the present ones.
- `Loader.CoerceChurn`: a churn column of `True`/`False` with a blank cell is not modelled. pandas reads it as dtype `object` holding Python booleans and NaN. The script's test at dashboard.py:15 then passes, and line 16 maps every cell, `True` and `False` included, to NaN. A model cell is text, a number or missing, with no boolean kind, so this case cannot arise.
- Numeric churn values outside {0, 1} pass through as the code passes them. The [0, 1] bounds are proved for binary churn values only.

=== FILE: aggregation.dfy ===
/**
 * The metrics and grouped churn rates of dashboard.py:42-66: `len`, the
 * NaN-skipping `.sum()` and `.mean()` of pandas, and
 * `groupby(field)["is_churned"].mean()` with its keys in sorted order.
 */
module Aggregation {
  import opened Wrappers
  import opened Loader
  import opened Filtering
  import opened StringOrder

  // ------------------------------------------------------------------
  // Sums over rows
  // ------------------------------------------------------------------

  /** The sum of a per-row weight over the rows. */
  function SumBy(rows: seq<Row>, w: Row -> int): int {
    if rows == [] then 0 else w(rows[0]) + SumBy(rows[1..], w)
  }

  /** Weight 1 per row: summing it counts rows. */
  function One(r: Row): int { 1 }

  /** The churn value a row adds to `.sum()`: a missing value adds nothing. */
  function ChurnWeight(r: Row): int {
    match NumericValue(r.isChurned)
    case Some(n) => n
    case None => 0
  }

  /** 1 for a row whose churn value is present: summing it is `.count()`. */
  function Present(r: Row): int {
    if NumericValue(r.isChurned).Some? then 1 else 0
  }

  /** 1 for a churned row. */
  function Churned(r: Row): int {
    if r.isChurned == Number(1) then 1 else 0
  }

  lemma {:induction false} SumByOne(rows: seq<Row>)
    ensures SumBy(rows, One) == |rows|
  {
    if rows != [] {
      SumByOne(rows[1..]);
    }
  }

  /** A sum grows with its weights. */
  lemma {:induction false} SumByMonotone(rows: seq<Row>, w1: Row -> int, w2: Row -> int)
    requires forall r :: r in rows ==> w1(r) <= w2(r)
    ensures SumBy(rows, w1) <= SumBy(rows, w2)
  {
    if rows != [] {
      assert rows[0] in rows;
      SumByMonotone(rows[1..], w1, w2);
    }
  }

  lemma {:induction false} SumByNonNegative(rows: seq<Row>, w: Row -> int)
    requires forall r :: r in rows ==> 0 <= w(r)
    ensures 0 <= SumBy(rows, w)
  {
    if rows != [] {
      assert rows[0] in rows;
      SumByNonNegative(rows[1..], w);
    }
  }

  /** On binary churn values the sum of the column counts the churned rows,
      and it lies between 0 and the number of present values, itself at most
      the number of rows. */
  lemma {:induction false} ChurnBounds(rows: seq<Row>)
    requires BinaryChurn(rows)
    ensures SumBy(rows, ChurnWeight) == SumBy(rows, Churned)
    ensures 0 <= SumBy(rows, ChurnWeight) <= SumBy(rows, Present) <= |rows|
  {
    SumByMonotone(rows, ChurnWeight, Churned);
    SumByMonotone(rows, Churned, ChurnWeight);
    SumByNonNegative(rows, ChurnWeight);
    SumByMonotone(rows, ChurnWeight, Present);
    SumByMonotone(rows, Present, One);
    SumByOne(rows);
  }

  /** With no missing churn value every row is present. */
  lemma {:induction false} CompletePresent(rows: seq<Row>)
    requires forall r :: r in rows ==> r.isChurned.Number?
    ensures SumBy(rows, Present) == |rows|
  {
    SumByMonotone(rows, Present, One);
    SumByMonotone(rows, One, Present);
    SumByOne(rows);
  }

  // ------------------------------------------------------------------
  // Metrics (dashboard.py:44-46)
  // ------------------------------------------------------------------

  /** `filtered_df['is_churned'].sum()`: on binary churn values, the
      number of churned rows. */
  function TotalChurned(view: seq<Row>): (t: int)
    ensures BinaryChurn(view) ==> t == SumBy(view, Churned) && 0 <= t <= |view|
  {
    if BinaryChurn(view) then ChurnBounds(view); SumBy(view, ChurnWeight)
    else SumBy(view, ChurnWeight)
  }

  function ListeningSum(rows: seq<Row>): real {
    if rows == [] then 0.0 else rows[0].listeningTime + ListeningSum(rows[1..])
  }

  /** `filtered_df['listening_time'].mean()`, before rounding: it lies
      between the smallest and the largest listening time. */
  function AverageListeningTime(view: seq<Row>): (a: real)
    requires view != []
    ensures MinListening(view) <= a <= MaxListening(view)
  {
    ListeningRange(view);
    AverageWithinRange(view, MinListening(view), MaxListening(view));
    ListeningSum(view) / |view| as real
  }

  /** `x` added up `n` times. */
  function Repeat(n: nat, x: real): real {
    if n == 0 then 0.0 else x + Repeat(n - 1, x)
  }

  lemma {:induction false} RepeatIsProduct(n: nat, x: real)
    ensures Repeat(n, x) == n as real * x
  {
    if n > 0 {
      RepeatIsProduct(n - 1, x);
      Distribute((n - 1) as real, x);
    }
  }

  lemma Distribute(m: real, x: real)
    ensures (m + 1.0) * x == m * x + x
  {
  }

  lemma {:induction false} ListeningSumBounds(rows: seq<Row>, lo: real, hi: real)
    requires forall r :: r in rows ==> lo <= r.listeningTime <= hi
    ensures Repeat(|rows|, lo) <= ListeningSum(rows) <= Repeat(|rows|, hi)
  {
    if rows != [] {
      assert rows[0] in rows;
      ListeningSumBounds(rows[1..], lo, hi);
    }
  }

  /** The mean listening time, the total over the number of rows, lies
      within any bounds that hold for every row. */
  lemma {:induction false} AverageWithinRange(view: seq<Row>, lo: real, hi: real)
    requires view != []
    requires forall r :: r in view ==> lo <= r.listeningTime <= hi
    ensures lo <= ListeningSum(view) / |view| as real <= hi
  {
    ListeningSumBounds(view, lo, hi);
    RepeatIsProduct(|view|, lo);
    RepeatIsProduct(|view|, hi);
    QuotientWithin(ListeningSum(view), |view| as real, lo);
    QuotientWithin(ListeningSum(view), |view| as real, hi);
  }

  lemma QuotientWithin(s: real, n: real, x: real)
    requires n > 0.0
    ensures n * x <= s ==> x <= s / n
    ensures s <= n * x ==> s / n <= x
  {
    var q := s / n;
    assert q * n == s;
    assert s - n * x == (q - x) * n;
  }

  function MinListening(rows: seq<Row>): real
    requires rows != []
  {
    if |rows| == 1 then rows[0].listeningTime
    else var m := MinListening(rows[1..]); if rows[0].listeningTime <= m then rows[0].listeningTime else m
  }

  function MaxListening(rows: seq<Row>): real
    requires rows != []
  {
    if |rows| == 1 then rows[0].listeningTime
    else var m := MaxListening(rows[1..]); if rows[0].listeningTime >= m then rows[0].listeningTime else m
  }

  lemma {:induction false} ListeningRange(rows: seq<Row>)
    requires rows != []
    ensures forall r :: r in rows ==> MinListening(rows) <= r.listeningTime <= MaxListening(rows)
  {
    if |rows| > 1 {
      ListeningRange(rows[1..]);
      assert forall r :: r in rows ==> r == rows[0] || r in rows[1..];
    }
  }

  /** The three metric cards. */
  datatype Summary = Summary(totalUsers: nat, totalChurned: int, avgListeningTime: real)

  /** dashboard.py:44-46, on a non-empty view. */
  function Summarise(view: seq<Row>): (s: Summary)
    requires view != []
    ensures s.totalUsers == |view|
    ensures BinaryChurn(view) ==> s.totalChurned == SumBy(view, Churned) && 0 <= s.totalChurned <= s.totalUsers
    ensures MinListening(view) <= s.avgListeningTime <= MaxListening(view)
  {
    Summary(|view|, TotalChurned(view), AverageListeningTime(view))
  }

  // ------------------------------------------------------------------
  // Grouping (dashboard.py:54 and 63)
  // ------------------------------------------------------------------

  /** The rows whose value in column `f` is one of `ks`, in order. */
  function KeyedBy(view: seq<Row>, f: Field, ks: set<string>): (r: seq<Row>)
    ensures |r| <= |view|
    ensures forall x :: x in r ==> x in view && Value(x, f) in ks
  {
    if view == [] then []
    else if Value(view[0], f) in ks then [view[0]] + KeyedBy(view[1..], f, ks)
    else KeyedBy(view[1..], f, ks)
  }

  /** A row occurs among the keyed rows as often as in the view when its
      key is selected, and not at all otherwise. */
  lemma {:induction false} KeyedByMultiplicity(view: seq<Row>, f: Field, ks: set<string>, x: Row)
    ensures multiset(KeyedBy(view, f, ks))[x] == if Value(x, f) in ks then multiset(view)[x] else 0
  {
    if view != [] {
      KeyedByMultiplicity(view[1..], f, ks, x);
      assert view == [view[0]] + view[1..];
    }
  }

  /** One group of `groupby(f)`: every row of the view whose value in `f`
      is `k`, as often as it occurs in the view, and no other row. */
  function Group(view: seq<Row>, f: Field, k: string): (g: seq<Row>)
    ensures forall x :: x in g <==> x in view && Value(x, f) == k
    ensures forall x :: Value(x, f) == k ==> multiset(g)[x] == multiset(view)[x]
  {
    forall x
      ensures x in KeyedBy(view, f, {k}) <==> x in view && Value(x, f) == k
      ensures Value(x, f) == k ==> multiset(KeyedBy(view, f, {k}))[x] == multiset(view)[x]
    {
      KeyedByMultiplicity(view, f, {k}, x);
    }
    KeyedBy(view, f, {k})
  }

  /** The keys `groupby(f)` reports: the distinct values of `f`, sorted. */
  function SortedKeys(view: seq<Row>, f: Field): (ks: seq<string>)
    ensures StrictlySorted(ks)
    ensures forall k :: k in ks <==> k in Distinct(view, f)
  {
    if view == [] then []
    else
      var ks := Insert(Value(view[0], f), SortedKeys(view[1..], f));
      assert forall r :: r in view <==> r == view[0] || r in view[1..];
      ks
  }

  /** A value that occurs in the view has a non-empty group. */
  lemma {:induction false} GroupNonEmpty(view: seq<Row>, f: Field, k: string)
    requires k in Distinct(view, f)
    ensures Group(view, f, k) != []
  {
    if Value(view[0], f) != k {
      assert k in Distinct(view[1..], f);
      GroupNonEmpty(view[1..], f, k);
    }
  }

  /** Every sorted key has a non-empty group. */
  lemma KeysHaveGroups(view: seq<Row>, f: Field, ks: seq<string>)
    requires ks == SortedKeys(view, f)
    ensures forall i :: 0 <= i < |ks| ==> Group(view, f, ks[i]) != []
  {
    forall i | 0 <= i < |ks|
      ensures Group(view, f, ks[i]) != []
    {
      assert ks[i] in ks;
      GroupNonEmpty(view, f, ks[i]);
    }
  }

  /** The mean of the churn column, skipping missing values: missing (NaN)
      exactly when no value is present, and in [0, 1] on binary values. */
  function ChurnMean(rows: seq<Row>): (m: Option<real>)
    ensures m.None? <==> forall r :: r in rows ==> !r.isChurned.Number?
    ensures BinaryChurn(rows) && m.Some? ==> 0.0 <= m.value <= 1.0
  {
    var n := SumBy(rows, Present);
    NonePresent(rows);
    if n == 0 then None
    else
      MeanInUnitInterval(rows);
      Some(SumBy(rows, ChurnWeight) as real / n as real)
  }

  /** No churn value is present exactly when the count of present values is 0. */
  lemma {:induction false} NonePresent(rows: seq<Row>)
    ensures SumBy(rows, Present) == 0 <==> forall r :: r in rows ==> !r.isChurned.Number?
  {
    if rows != [] {
      NonePresent(rows[1..]);
      SumByNonNegative(rows[1..], Present);
      assert forall r :: r in rows <==> r == rows[0] || r in rows[1..];
    }
  }

  /** One row of `groupby(...).mean().reset_index()` after the rename to
      `churn_rate`. */
  datatype GroupRate = GroupRate(key: string, churnRate: Option<real>)

  /** `groupby(f)["is_churned"].mean()`: one entry per distinct value of `f`
      in the view, in sorted order, each with a non-empty group and that
      group's mean churn. */
  function GroupRates(view: seq<Row>, f: Field): (g: seq<GroupRate>)
    ensures |g| == |SortedKeys(view, f)|
    ensures forall i, j :: 0 <= i < j < |g| ==> Below(g[i].key, g[j].key)
    ensures forall k :: k in Distinct(view, f) <==> exists i :: 0 <= i < |g| && g[i].key == k
    ensures forall i :: 0 <= i < |g| ==> Group(view, f, g[i].key) != []
    ensures forall i :: 0 <= i < |g| ==> g[i].churnRate == ChurnMean(Group(view, f, g[i].key))
  {
    var ks := SortedKeys(view, f);
    KeysHaveGroups(view, f, ks);
    var g := seq(|ks|, i requires 0 <= i < |ks| => GroupRate(ks[i], ChurnMean(Group(view, f, ks[i]))));
    forall k | k in Distinct(view, f)
      ensures exists i :: 0 <= i < |g| && g[i].key == k
    {
      var i :| 0 <= i < |ks| && ks[i] == k;
      assert g[i].key == k;
    }
    g
  }

  /** On binary churn values every group's rate lies in [0, 1]. */
  lemma RateInUnitInterval(view: seq<Row>, f: Field)
    requires BinaryChurn(view)
    ensures forall i :: 0 <= i < |GroupRates(view, f)| && GroupRates(view, f)[i].churnRate.Some? ==>
              0.0 <= GroupRates(view, f)[i].churnRate.value <= 1.0
  {
    var g := GroupRates(view, f);
    forall i | 0 <= i < |g| && g[i].churnRate.Some?
      ensures 0.0 <= g[i].churnRate.value <= 1.0
    {
      assert BinaryChurn(Group(view, f, g[i].key));
    }
  }

  /** On binary churn values the sum of the present values over their count
      lies in [0, 1]. */
  lemma MeanInUnitInterval(rows: seq<Row>)
    ensures BinaryChurn(rows) && SumBy(rows, Present) != 0 ==>
              0.0 <= SumBy(rows, ChurnWeight) as real / SumBy(rows, Present) as real <= 1.0
  {
    if BinaryChurn(rows) {
      ChurnBounds(rows);
      var c, n := SumBy(rows, ChurnWeight), SumBy(rows, Present);
      if n != 0 {
        RatioInUnitInterval(c, n);
      }
    }
  }

  lemma RatioInUnitInterval(c: int, n: int)
    requires 0 <= c <= n && 0 < n
    ensures 0.0 <= c as real / n as real <= 1.0
  {
    var q := c as real / n as real;
    assert q * n as real == c as real;
  }

  /** On binary churn values with none missing, a group's rate is its number
      of churned rows over its size. */
  lemma {:induction false} RateIsChurnedOverSize(rows: seq<Row>)
    requires rows != []
    requires forall r :: r in rows ==> r.isChurned == Number(0) || r.isChurned == Number(1)
    ensures ChurnMean(rows) == Some(SumBy(rows, Churned) as real / |rows| as real)
  {
    ChurnBounds(rows);
    CompletePresent(rows);
  }

  // ------------------------------------------------------------------
  // Conservation: the groups partition the view
  // ------------------------------------------------------------------

  /** The sum of a weight over the groups of the given keys. */
  function SumOverGroups(view: seq<Row>, f: Field, keys: seq<string>, w: Row -> int): int {
    if keys == [] then 0 else SumBy(Group(view, f, keys[0]), w) + SumOverGroups(view, f, keys[1..], w)
  }

  lemma {:induction false} SplitKeyed(view: seq<Row>, f: Field, k: string, ks: set<string>, w: Row -> int)
    requires k !in ks
    ensures SumBy(KeyedBy(view, f, ks + {k}), w) == SumBy(Group(view, f, k), w) + SumBy(KeyedBy(view, f, ks), w)
  {
    if view != [] {
      SplitKeyed(view[1..], f, k, ks, w);
    }
  }

  lemma {:induction false} PartitionSum(view: seq<Row>, f: Field, keys: seq<string>, w: Row -> int)
    requires forall i, j :: 0 <= i < j < |keys| ==> keys[i] != keys[j]
    ensures SumOverGroups(view, f, keys, w) == SumBy(KeyedBy(view, f, Elems(keys)), w)
  {
    if keys == [] {
      assert Elems(keys) == {};
      NoneKeyed(view, f);
    } else {
      PartitionSum(view, f, keys[1..], w);
      assert Elems(keys) == Elems(keys[1..]) + {keys[0]};
      SplitKeyed(view, f, keys[0], Elems(keys[1..]), w);
    }
  }

  lemma {:induction false} NoneKeyed(view: seq<Row>, f: Field)
    ensures KeyedBy(view, f, {}) == []
  {
    if view != [] {
      NoneKeyed(view[1..], f);
    }
  }

  lemma {:induction false} KeyedByAll(view: seq<Row>, f: Field, ks: set<string>)
    requires forall i :: 0 <= i < |view| ==> Value(view[i], f) in ks
    ensures KeyedBy(view, f, ks) == view
  {
    if view != [] {
      var rest := view[1..];
      assert forall i :: 0 <= i < |rest| ==> rest[i] == view[i + 1];
      KeyedByAll(rest, f, ks);
      assert view == [view[0]] + rest;
    }
  }

  /** Any per-row quantity summed group by group gives its sum over the view. */
  lemma GroupsPartitionView(view: seq<Row>, f: Field, w: Row -> int)
    ensures SumOverGroups(view, f, SortedKeys(view, f), w) == SumBy(view, w)
  {
    var ks := SortedKeys(view, f);
    StrictlySortedDistinct(ks);
    PartitionSum(view, f, ks, w);
    forall i | 0 <= i < |view|
      ensures Value(view[i], f) in Elems(ks)
    {
      assert view[i] in view;
    }
    KeyedByAll(view, f, Elems(ks));
  }

  /** The group sizes add up to the number of rows in the view. */
  lemma GroupSizesSum(view: seq<Row>, f: Field)
    ensures SumOverGroups(view, f, SortedKeys(view, f), One) == |view|
  {
    GroupsPartitionView(view, f, One);
    SumByOne(view);
  }

  /** The churned counts of the groups add up to the view's total churned. */
  lemma GroupChurnSum(view: seq<Row>, f: Field)
    ensures SumOverGroups(view, f, SortedKeys(view, f), ChurnWeight) == TotalChurned(view)
  {
    GroupsPartitionView(view, f, ChurnWeight);
  }
}

=== FILE: dashboard.dfy ===
/**
 * One run of the dashboard script after loading (dashboard.py:25-66): the
 * filtered view, then either the metrics and the two churn-rate tables or
 * the "no data" warning.
 */
module Dashboard {
  import opened Wrappers
  import opened Loader
  import opened Filtering
  import opened Aggregation
  import opened StringOrder

  /** Everything the page shows when the view is non-empty. */
  datatype Report = Report(summary: Summary, bySubscription: seq<GroupRate>, byDevice: seq<GroupRate>)

  /** The page: the row count (line 36), the view shown as a table
      (line 112), and the report, or `None` for the warning of line 48. */
  datatype Page = Page(rowCount: nat, filtered: seq<Row>, report: Option<Report>)

  /** The script from the sidebar filters on, for a loaded table (its churn
      column holds no text after dashboard.py:15-16). */
  function Render(table: seq<Row>, sel: Selection): (p: Page)
    requires NumericChurn(table)
    ensures p.filtered == Filter(table, sel)
    ensures p.rowCount == |p.filtered|
    ensures forall r :: r in p.filtered <==> r in table && Keep(r, sel)
    ensures IsSubsequence(p.filtered, table)
    ensures p.report == None <==> forall r :: r in table ==> !Keep(r, sel)
    ensures p.report.Some? ==> p.report.value.summary == Summarise(p.filtered)
    ensures p.report.Some? ==> p.report.value.summary.totalUsers == p.rowCount
    ensures p.report.Some? ==> p.report.value.bySubscription == GroupRates(p.filtered, SubscriptionType)
    ensures p.report.Some? ==> p.report.value.byDevice == GroupRates(p.filtered, DeviceType)
  {
    var view := Filter(table, sel);
    RenderFacts(table, sel);
    Page(|view|, view,
         if view == [] then None
         else Some(Report(Summarise(view), GroupRates(view, SubscriptionType), GroupRates(view, DeviceType))))
  }

  lemma RenderFacts(table: seq<Row>, sel: Selection)
    ensures forall r :: r in Filter(table, sel) <==> r in table && Keep(r, sel)
    ensures IsSubsequence(Filter(table, sel), table)
    ensures Filter(table, sel) == [] <==> forall r :: r in table ==> !Keep(r, sel)
  {
    forall r
      ensures r in Filter(table, sel) <==> r in table && Keep(r, sel)
    {
      FilterMembership(table, sel, r);
    }
    FilterIsSubsequence(table, sel);
    var view := Filter(table, sel);
    if view != [] {
      assert view[0] in view;
    }
  }

  /** With the sidebar left at its defaults, a non-empty table is shown
      whole and its metrics are computed over every row. */
  lemma {:induction false} DefaultPageShowsAll(table: seq<Row>)
    requires table != [] && NumericChurn(table)
    ensures Render(table, DefaultSelection(table)).filtered == table
    ensures Render(table, DefaultSelection(table)).report.Some?
    ensures Render(table, DefaultSelection(table)).report.value.summary.totalUsers == |table|
  {
    DefaultSelectionKeepsAll(table);
  }

  /** Every rate on the page lies in [0, 1] when the churn values are binary. */
  lemma {:induction false} PageRatesInUnitInterval(table: seq<Row>, sel: Selection)
    requires BinaryChurn(table)
    ensures var p := Render(table, sel);
      p.report.Some? ==>
        && (forall i :: 0 <= i < |p.report.value.bySubscription| && p.report.value.bySubscription[i].churnRate.Some? ==>
              0.0 <= p.report.value.bySubscription[i].churnRate.value <= 1.0)
        && (forall i :: 0 <= i < |p.report.value.byDevice| && p.report.value.byDevice[i].churnRate.Some? ==>
              0.0 <= p.report.value.byDevice[i].churnRate.value <= 1.0)
        && 0 <= p.report.value.summary.totalChurned <= p.report.value.summary.totalUsers
  {
    var view := Filter(table, sel);
    assert BinaryChurn(view);
    RateInUnitInterval(view, SubscriptionType);
    RateInUnitInterval(view, DeviceType);
  }

  /** Two loaded users: one churned on Free, one retained on Premium. */
  function TwoUsers(): seq<Row> {
    [Row("US", "F", "Free", "Mobile", 2.0, 10.0, 0.1, Number(1)),
     Row("US", "M", "Premium", "Desktop", 4.0, 20.0, 0.2, Number(0))]
  }

  /** The two users as a file with a "Yes"/"No" churn column would hold them. */
  function TwoUsersRaw(): seq<Row> {
    [Row("US", "F", "Free", "Mobile", 2.0, 10.0, 0.1, Text("Yes")),
     Row("US", "M", "Premium", "Desktop", 4.0, 20.0, 0.2, Text("No"))]
  }

  /** From the file to the page: coercing the "Yes"/"No" column yields the
      loaded two users, whose page then shows both rows, one churned, and
      the rates 1 for Free and 0 for Premium. */
  lemma TwoUsersEndToEnd()
    ensures var loaded := WithChurn(TwoUsersRaw(), ToCells(CoerceChurn(ChurnColumn(TwoUsersRaw()))));
      && loaded == TwoUsers()
      && NumericChurn(loaded)
      && Render(loaded, Selection({"US"}, {"F", "M"}, {"Free", "Premium"})).report == Some(Report(
           Summary(2, 1, 3.0),
           [GroupRate("Free", Some(1.0)), GroupRate("Premium", Some(0.0))],
           [GroupRate("Desktop", Some(0.0)), GroupRate("Mobile", Some(1.0))]))
  {
    var raw := TwoUsersRaw();
    var col := ChurnColumn(raw);
    assert col == [Text("Yes"), Text("No")];
    assert IsTextual(col) by { assert col[0].Text?; }
    var coerced := CoerceChurn(col);
    assert coerced == [Some(1), Some(0)];
    assert ToCells(coerced) == [Number(1), Number(0)];
    assert WithChurn(raw, ToCells(coerced)) == TwoUsers();
    TwoUsersAllSelected();
  }

  /** Every value selected: both rows, one churned, a mean listening time of
      3 hours, and a churn rate of 1 for Free and 0 for Premium. */
  lemma TwoUsersAllSelected()
    ensures var p := Render(TwoUsers(), Selection({"US"}, {"F", "M"}, {"Free", "Premium"}));
      && p.rowCount == 2
      && p.report == Some(Report(
           Summary(2, 1, 3.0),
           [GroupRate("Free", Some(1.0)), GroupRate("Premium", Some(0.0))],
           [GroupRate("Desktop", Some(0.0)), GroupRate("Mobile", Some(1.0))]))
  {
    TwoUsersAllKept();
    TwoUsersByDevice();
    TwoUsersBySubscription();
    TwoUsersSummary();
  }

  lemma TwoUsersAllKept()
    ensures Filter(TwoUsers(), Selection({"US"}, {"F", "M"}, {"Free", "Premium"})) == TwoUsers()
  {
    var t := TwoUsers();
    assert Filter(t[1..][1..], Selection({"US"}, {"F", "M"}, {"Free", "Premium"})) == [];
  }

  /** The metric cards for the two users. */
  lemma TwoUsersSummary()
    ensures Summarise(TwoUsers()) == Summary(2, 1, 3.0)
  {
    var t := TwoUsers();
    assert t[1..][1..] == [];
    assert TotalChurned(t) == 1;
    assert ListeningSum(t) == 6.0;
  }

  lemma TwoUsersByDevice()
    ensures GroupRates(TwoUsers(), DeviceType) == [GroupRate("Desktop", Some(0.0)), GroupRate("Mobile", Some(1.0))]
  {
    TwoUsersKeys();
    TwoUsersGroups();
    TwoUsersMeans();
  }

  lemma TwoUsersBySubscription()
    ensures GroupRates(TwoUsers(), SubscriptionType) == [GroupRate("Free", Some(1.0)), GroupRate("Premium", Some(0.0))]
  {
    TwoUsersKeys();
    TwoUsersGroups();
    TwoUsersMeans();
  }

  /** The sorted group keys of the two users. */
  lemma TwoUsersKeys()
    ensures SortedKeys(TwoUsers(), DeviceType) == ["Desktop", "Mobile"]
    ensures SortedKeys(TwoUsers(), SubscriptionType) == ["Free", "Premium"]
  {
    var t := TwoUsers();
    assert Below("Desktop", "Mobile");
    assert SortedKeys(t[1..], DeviceType) == ["Desktop"];
    assert Below("Free", "Premium");
    assert SortedKeys(t[1..], SubscriptionType) == ["Premium"];
  }

  /** Each of the two users forms a group of their own. */
  lemma TwoUsersGroups()
    ensures Group(TwoUsers(), DeviceType, "Desktop") == [TwoUsers()[1]]
    ensures Group(TwoUsers(), DeviceType, "Mobile") == [TwoUsers()[0]]
    ensures Group(TwoUsers(), SubscriptionType, "Free") == [TwoUsers()[0]]
    ensures Group(TwoUsers(), SubscriptionType, "Premium") == [TwoUsers()[1]]
  {
    var t := TwoUsers();
    assert t[1..][1..] == [];
  }

  /** The churned user's mean is 1, the other's 0. */
  lemma TwoUsersMeans()
    ensures ChurnMean([TwoUsers()[0]]) == Some(1.0)
    ensures ChurnMean([TwoUsers()[1]]) == Some(0.0)
  {
    var t := TwoUsers();
    assert [t[0]][1..] == [] && [t[1]][1..] == [];
    assert SumBy([t[0]], Present) == 1 && SumBy([t[0]], ChurnWeight) == 1;
    assert SumBy([t[1]], Present) == 1 && SumBy([t[1]], ChurnWeight) == 0;
  }

  /** The sidebar's defaults for the two users. */
  lemma TwoUsersDefaults()
    ensures DefaultSelection(TwoUsers()) == Selection({"US"}, {"F", "M"}, {"Free", "Premium"})
  {
    var t := TwoUsers();
    assert t[0] in t && t[1] in t;
    assert Distinct(t, Country) == {"US"};
    assert Distinct(t, Gender) == {"F", "M"};
    assert Distinct(t, SubscriptionType) == {"Free", "Premium"};
  }

  /** Only Premium selected, the rest at their defaults: one row, nobody churned. */
  lemma TwoUsersPremiumOnly()
    ensures var p := Render(TwoUsers(), Selection({"US"}, {"F", "M"}, {"Premium"}));
      && p.filtered == [TwoUsers()[1]]
      && p.report.Some? && p.report.value.summary.totalChurned == 0
  {
    var t := TwoUsers();
    assert Filter(t, Selection({"US"}, {"F", "M"}, {"Premium"})) == [t[1]];
  }

  /** A selection no row matches: no metrics, the warning instead. */
  lemma TwoUsersNoMatch()
    ensures Render(TwoUsers(), Selection({"FR"}, {"F", "M"}, {"Free", "Premium"})).report == None
  {
  }
}

=== FILE: filtering.dfy ===
/**
 * The sidebar selections and the boolean-mask filter of dashboard.py:25-34:
 * a row stays in the view when its country, gender and subscription type
 * are each among the selected values.
 */
module Filtering {
  import opened Loader

  /** The categorical columns the dashboard filters or groups by. */
  datatype Field = Country | Gender | SubscriptionType | DeviceType

  function Value(r: Row, f: Field): string {
    match f
    case Country => r.country
    case Gender => r.gender
    case SubscriptionType => r.subscriptionType
    case DeviceType => r.deviceType
  }

  /** The three multiselect values of the sidebar, as sets (`isin` only asks
      for membership). */
  datatype Selection = Selection(countries: set<string>, genders: set<string>, subscriptionTypes: set<string>)

  /** The mask of dashboard.py:31-33 for one row. */
  predicate Keep(r: Row, sel: Selection) {
    && r.country in sel.countries
    && r.gender in sel.genders
    && r.subscriptionType in sel.subscriptionTypes
  }

  /** `df[mask]`: the kept rows, in table order. */
  function Filter(table: seq<Row>, sel: Selection): (view: seq<Row>)
    ensures |view| <= |table|
    ensures forall r :: r in view ==> r in table && Keep(r, sel)
  {
    if table == [] then []
    else if Keep(table[0], sel) then [table[0]] + Filter(table[1..], sel)
    else Filter(table[1..], sel)
  }

  /** `xs` is `ys` with some elements dropped, the rest in their order. */
  predicate IsSubsequence(xs: seq<Row>, ys: seq<Row>)
    decreases |xs| + |ys|
  {
    if xs == [] then true
    else if ys == [] then false
    else (xs[0] == ys[0] && IsSubsequence(xs[1..], ys[1..])) || IsSubsequence(xs, ys[1..])
  }

  /** Each row occurs in the view as often as in the table when it passes the
      mask, and not at all otherwise. */
  lemma {:induction false} FilterMultiplicity(table: seq<Row>, sel: Selection, r: Row)
    ensures multiset(Filter(table, sel))[r] == if Keep(r, sel) then multiset(table)[r] else 0
  {
    if table != [] {
      FilterMultiplicity(table[1..], sel, r);
      assert table == [table[0]] + table[1..];
    }
  }

  /** A row is in the view if and only if it is in the table and passes the mask. */
  lemma {:induction false} FilterMembership(table: seq<Row>, sel: Selection, r: Row)
    ensures r in Filter(table, sel) <==> r in table && Keep(r, sel)
  {
    FilterMultiplicity(table, sel, r);
  }

  /** The view keeps the table's order. */
  lemma {:induction false} FilterIsSubsequence(table: seq<Row>, sel: Selection)
    ensures IsSubsequence(Filter(table, sel), table)
  {
    if table != [] {
      FilterIsSubsequence(table[1..], sel);
    }
  }

  /** When the mask passes every row, the view is the whole table. */
  lemma {:induction false} FilterKeepsAll(table: seq<Row>, sel: Selection)
    requires forall r :: r in table ==> Keep(r, sel)
    ensures Filter(table, sel) == table
  {
    if table != [] {
      FilterKeepsAll(table[1..], sel);
      assert table == [table[0]] + table[1..];
    }
  }

  /** Filtering the view again with the same selection changes nothing. */
  lemma {:induction false} FilterIdempotent(table: seq<Row>, sel: Selection)
    ensures Filter(Filter(table, sel), sel) == Filter(table, sel)
  {
    FilterKeepsAll(Filter(table, sel), sel);
  }

  /** Every selected set of `small` is inside the one of `large`. */
  predicate Within(small: Selection, large: Selection) {
    && small.countries <= large.countries
    && small.genders <= large.genders
    && small.subscriptionTypes <= large.subscriptionTypes
  }

  /** Selecting more values never drops a row from the view; the smaller
      view is a subsequence of the larger one. */
  lemma {:induction false} FilterMonotone(table: seq<Row>, small: Selection, large: Selection)
    requires Within(small, large)
    ensures IsSubsequence(Filter(table, small), Filter(table, large))
  {
    if table != [] {
      FilterMonotone(table[1..], small, large);
      var xs, ys := Filter(table[1..], small), Filter(table[1..], large);
      if Keep(table[0], large) && !Keep(table[0], small) && xs != [] {
        assert ([table[0]] + ys)[1..] == ys;
      }
    }
  }

  /** An empty choice in any of the three multiselects empties the view. */
  lemma {:induction false} EmptySelectionEmptiesView(table: seq<Row>, sel: Selection)
    requires sel.countries == {} || sel.genders == {} || sel.subscriptionTypes == {}
    ensures Filter(table, sel) == []
  {
    if table != [] {
      EmptySelectionEmptiesView(table[1..], sel);
    }
  }

  // ------------------------------------------------------------------
  // Default selections: `df[col].unique()` on the full table
  // ------------------------------------------------------------------

  function Elems(xs: seq<string>): set<string> {
    set x | x in xs
  }

  /** The values of one column of the table, row by row. */
  function Column(table: seq<Row>, f: Field): (col: seq<string>)
    ensures |col| == |table|
    ensures forall i :: 0 <= i < |table| ==> col[i] == Value(table[i], f)
  {
    seq(|table|, i requires 0 <= i < |table| => Value(table[i], f))
  }

  /** The distinct values of one column. */
  function Distinct(table: seq<Row>, f: Field): set<string> {
    set r | r in table :: Value(r, f)
  }

  /** Position of the first occurrence of `x`. */
  function FirstIndex(xs: seq<string>, x: string): (i: nat)
    requires x in xs
    ensures i < |xs| && xs[i] == x
    ensures forall j :: 0 <= j < i ==> xs[j] != x
  {
    if xs[0] == x then 0 else 1 + FirstIndex(xs[1..], x)
  }

  lemma FirstIndexExtend(p: seq<string>, x: string)
    ensures forall y :: y in p ==> FirstIndex(p + [x], y) == FirstIndex(p, y)
    ensures x !in p ==> FirstIndex(p + [x], x) == |p|
  {
    forall y | y in p
      ensures FirstIndex(p + [x], y) == FirstIndex(p, y)
    {
      var i, k := FirstIndex(p + [x], y), FirstIndex(p, y);
      assert (p + [x])[k] == y;
      assert i <= k;
      assert p[i] == y;
    }
  }

  /** `Series.unique()`: each value once, in order of first appearance. */
  function Unique(xs: seq<string>): (u: seq<string>)
    ensures forall x :: x in u <==> x in xs
    ensures forall i, j :: 0 <= i < j < |u| ==> u[i] != u[j]
    ensures forall i, j :: 0 <= i < j < |u| ==> FirstIndex(xs, u[i]) < FirstIndex(xs, u[j])
  {
    if xs == [] then []
    else
      var p, x := xs[..|xs| - 1], xs[|xs| - 1];
      assert xs == p + [x];
      var u := Unique(p);
      FirstIndexExtend(p, x);
      if x in u then u else u + [x]
  }

  /** The sidebar's defaults: every distinct value of each column. */
  function DefaultSelection(table: seq<Row>): (sel: Selection)
    ensures sel.countries == Distinct(table, Country)
    ensures sel.genders == Distinct(table, Gender)
    ensures sel.subscriptionTypes == Distinct(table, SubscriptionType)
  {
    ColumnElems(table, Country);
    ColumnElems(table, Gender);
    ColumnElems(table, SubscriptionType);
    Selection(
      Elems(Unique(Column(table, Country))),
      Elems(Unique(Column(table, Gender))),
      Elems(Unique(Column(table, SubscriptionType))))
  }

  lemma ColumnElems(table: seq<Row>, f: Field)
    ensures Elems(Unique(Column(table, f))) == Distinct(table, f)
  {
    var col := Column(table, f);
    forall x | x in Distinct(table, f)
      ensures x in col
    {
      var r :| r in table && Value(r, f) == x;
      var i :| 0 <= i < |table| && table[i] == r;
      assert col[i] == x;
    }
  }

  /** With the default selections the view is the whole table. */
  lemma {:induction false} DefaultSelectionKeepsAll(table: seq<Row>)
    ensures Filter(table, DefaultSelection(table)) == table
  {
    FilterKeepsAll(table, DefaultSelection(table));
  }
}

=== FILE: loader.dfy ===
/**
 * The data loader of the dashboard: the header clean-up of dashboard.py:12
 * and the Yes/No coercion of the churn column of dashboard.py:15-16, applied
 * in place to a data frame.
 */
module Loader {
  import opened Wrappers

  /** A cell of the `is_churned` column as read from the file: text, a number
      (a boolean column without blank cells reads as 1 and 0), or an empty
      field (NaN). */
  datatype Cell = Text(text: string) | Number(n: int) | Missing

  /** One user's record: the columns the dashboard reads. */
  datatype Row = Row(
    country: string,
    gender: string,
    subscriptionType: string,
    deviceType: string,
    listeningTime: real,
    songsPlayedPerDay: real,
    skipRate: real,
    isChurned: Cell)

  // ------------------------------------------------------------------
  // Column-name normalisation: strip, lower-case, spaces to underscores
  // ------------------------------------------------------------------

  /** Whitespace as Python's `str.isspace` sees it, restricted to ASCII:
      tab, line feed, vertical tab, form feed, carriage return, the four
      separators 0x1C-0x1F, and the space. */
  predicate IsSpace(c: char) {
    (9 <= c as int <= 13) || (28 <= c as int <= 31) || c == ' '
  }

  predicate IsUpper(c: char) {
    'A' <= c <= 'Z'
  }

  function LowerChar(c: char): (d: char)
    ensures !IsUpper(d)
    ensures IsSpace(d) <==> IsSpace(c)
    ensures d == ' ' <==> c == ' '
    ensures IsUpper(c) ==> 'a' <= d <= 'z' && d as int - c as int == 'a' as int - 'A' as int
    ensures !IsUpper(c) ==> d == c
  {
    if IsUpper(c) then (c as int + 32) as char else c
  }

  /** `str.lstrip()`: drops the leading whitespace. */
  function StripLeading(s: string): (r: string)
    ensures |r| <= |s| && r == s[|s| - |r|..]
    ensures forall i :: 0 <= i < |s| - |r| ==> IsSpace(s[i])
    ensures r == [] || !IsSpace(r[0])
  {
    if s != [] && IsSpace(s[0]) then StripLeading(s[1..]) else s
  }

  /** `str.rstrip()`: drops the trailing whitespace. */
  function StripTrailing(s: string): (r: string)
    ensures |r| <= |s| && r == s[..|r|]
    ensures forall i :: |r| <= i < |s| ==> IsSpace(s[i])
    ensures r == [] || !IsSpace(r[|r| - 1])
  {
    if s != [] && IsSpace(s[|s| - 1]) then StripTrailing(s[..|s| - 1]) else s
  }

  /** `str.strip()`: a slice of `s` that neither starts nor ends with
      whitespace, obtained by removing whitespace only. */
  function Strip(s: string): (r: string)
    ensures |r| <= |s|
    ensures r == [] || (!IsSpace(r[0]) && !IsSpace(r[|r| - 1]))
    ensures exists i :: SpaceAround(s, r, i)
  {
    StripSlices(s, StripLeading(s), StripTrailing(StripLeading(s)));
    assert SpaceAround(s, StripTrailing(StripLeading(s)), |s| - |StripLeading(s)|);
    StripTrailing(StripLeading(s))
  }

  /** A whitespace prefix cut from `s` leaves `t`, and a whitespace suffix
      cut from `t` leaves `r`: so `r` is a slice of `s` between whitespace,
      and if `t` does not start with whitespace, neither does `r`. */
  lemma StripSlices(s: string, t: string, r: string)
    requires |t| <= |s| && t == s[|s| - |t|..]
    requires forall k :: 0 <= k < |s| - |t| ==> IsSpace(s[k])
    requires |r| <= |t| && r == t[..|r|]
    requires forall k :: |r| <= k < |t| ==> IsSpace(t[k])
    requires t == [] || !IsSpace(t[0])
    ensures r == [] || !IsSpace(r[0])
    ensures SpaceAround(s, r, |s| - |t|)
  {
    var i := |s| - |t|;
    var tail := s[i + |r|..];
    forall k | 0 <= k < |tail|
      ensures IsSpace(tail[k])
    {
      assert tail[k] == t[|r| + k];
    }
    assert AllSpace(s[..i]);
    assert r == s[i..i + |r|];
    if r != [] {
      assert r[0] == t[0];
    }
  }

  /** `r` is the slice of `s` starting at `i`, and everything of `s`
      before and after that slice is whitespace. */
  predicate SpaceAround(s: string, r: string, i: int) {
    0 <= i <= |s| - |r| && r == s[i..i + |r|] && AllSpace(s[..i]) && AllSpace(s[i + |r|..])
  }

  predicate AllSpace(s: string) {
    forall i :: 0 <= i < |s| ==> IsSpace(s[i])
  }

  /** `str.lower()` on ASCII: upper-case letters become lower-case, every
      other character (and every position of whitespace) is kept. */
  function Lower(s: string): (r: string)
    ensures |r| == |s|
    ensures forall i :: 0 <= i < |r| ==> !IsUpper(r[i])
    ensures forall i :: 0 <= i < |r| ==> (IsSpace(r[i]) <==> IsSpace(s[i])) && (r[i] == ' ' <==> s[i] == ' ')
    ensures forall i :: 0 <= i < |r| && !IsUpper(s[i]) ==> r[i] == s[i]
    ensures forall i :: 0 <= i < |r| && IsUpper(s[i]) ==>
              'a' <= r[i] <= 'z' && r[i] as int - s[i] as int == 'a' as int - 'A' as int
  {
    seq(|s|, i requires 0 <= i < |s| => LowerChar(s[i]))
  }

  /** `str.replace(" ", "_")`: each space becomes an underscore; every
      other character stays where it was. */
  function ReplaceSpaces(s: string): (r: string)
    ensures |r| == |s|
    ensures forall i :: 0 <= i < |r| ==> r[i] != ' '
    ensures forall i :: 0 <= i < |r| && s[i] == ' ' ==> r[i] == '_'
    ensures forall i :: 0 <= i < |r| && s[i] != ' ' ==> r[i] == s[i]
  {
    seq(|s|, i requires 0 <= i < |s| => if s[i] == ' ' then '_' else s[i])
  }

  /** A normalised column name: no surrounding whitespace, no space, no
      upper-case ASCII letter. */
  predicate IsNormalName(h: string) {
    && (h == [] || (!IsSpace(h[0]) && !IsSpace(h[|h| - 1])))
    && forall i :: 0 <= i < |h| ==> h[i] != ' ' && !IsUpper(h[i])
  }

  /** One header through `.str.strip().str.lower().str.replace(" ", "_")`. */
  function NormaliseName(h: string): (r: string)
    ensures IsNormalName(r)
    ensures |r| <= |h|
  {
    ReplaceSpaces(Lower(Strip(h)))
  }

  /** The whole header row of the frame, name by name. */
  function NormaliseColumns(columns: seq<string>): (r: seq<string>)
    ensures |r| == |columns|
    ensures forall i :: 0 <= i < |r| ==> IsNormalName(r[i]) && r[i] == NormaliseName(columns[i])
  {
    seq(|columns|, i requires 0 <= i < |columns| => NormaliseName(columns[i]))
  }

  /** A normalised name is left alone by the normalisation. */
  lemma {:induction false} NormalNameIsFixed(h: string)
    requires IsNormalName(h)
    ensures NormaliseName(h) == h
  {
    assert Strip(h) == h by { StripFixed(h); }
    assert Lower(h) == h by { LowerFixed(h); }
    assert ReplaceSpaces(h) == h by { ReplaceSpacesFixed(h); }
  }

  lemma StripFixed(h: string)
    requires h == [] || (!IsSpace(h[0]) && !IsSpace(h[|h| - 1]))
    ensures Strip(h) == h
  {
    assert StripLeading(h) == h;
  }

  lemma LowerFixed(h: string)
    requires forall i :: 0 <= i < |h| ==> !IsUpper(h[i])
    ensures Lower(h) == h
  {
  }

  lemma ReplaceSpacesFixed(h: string)
    requires forall i :: 0 <= i < |h| ==> h[i] != ' '
    ensures ReplaceSpaces(h) == h
  {
  }

  /** Normalising twice is normalising once. */
  lemma {:induction false} NormaliseIdempotent(h: string)
    ensures NormaliseName(NormaliseName(h)) == NormaliseName(h)
  {
    NormalNameIsFixed(NormaliseName(h));
  }

  /** The names the normalisation leaves unchanged are exactly the normal ones. */
  lemma {:induction false} FixedPointsAreNormal(h: string)
    ensures NormaliseName(h) == h <==> IsNormalName(h)
  {
    if IsNormalName(h) {
      NormalNameIsFixed(h);
    }
  }

  /** Normalising an already normalised header row changes nothing. */
  lemma {:induction false} NormaliseColumnsIdempotent(columns: seq<string>)
    ensures NormaliseColumns(NormaliseColumns(columns)) == NormaliseColumns(columns)
  {
    var once := NormaliseColumns(columns);
    forall i | 0 <= i < |once|
      ensures NormaliseColumns(once)[i] == once[i]
    {
      NormalNameIsFixed(once[i]);
    }
  }

  // ------------------------------------------------------------------
  // Churn coercion: Yes/No text to 1/0
  // ------------------------------------------------------------------

  /** The column has pandas dtype `object`: it holds some text. */
  predicate IsTextual(col: seq<Cell>) {
    exists i :: 0 <= i < |col| && col[i].Text?
  }

  /** `.map({"Yes": 1, "No": 0})` on one cell: anything else becomes NaN. */
  function YesNo(c: Cell): (v: Option<int>)
    ensures v == Some(1) <==> c == Text("Yes")
    ensures v == Some(0) <==> c == Text("No")
    ensures v.Some? ==> c.Text? && (v.value == 0 || v.value == 1)
  {
    if c == Text("Yes") then Some(1)
    else if c == Text("No") then Some(0)
    else None
  }

  /** The numeric reading of a cell: a number is itself, anything else NaN. */
  function NumericValue(c: Cell): Option<int> {
    if c.Number? then Some(c.n) else None
  }

  /** A coerced value stored back in the frame. */
  function ToCell(v: Option<int>): (c: Cell)
    ensures !c.Text?
    ensures NumericValue(c) == v
  {
    match v
    case Some(n) => Number(n)
    case None => Missing
  }

  function ToCells(vs: seq<Option<int>>): (cs: seq<Cell>)
    ensures |cs| == |vs|
    ensures !IsTextual(cs)
  {
    seq(|vs|, i requires 0 <= i < |vs| => ToCell(vs[i]))
  }

  /** dashboard.py:15-16: a textual churn column is mapped Yes to 1, No to 0
      and any other cell to missing; a column without text passes through. */
  function CoerceChurn(col: seq<Cell>): (r: seq<Option<int>>)
    ensures |r| == |col|
    ensures IsTextual(col) ==> forall i :: 0 <= i < |col| ==>
              && (r[i] == Some(1) <==> col[i] == Text("Yes"))
              && (r[i] == Some(0) <==> col[i] == Text("No"))
              && (r[i] == None <==> col[i] != Text("Yes") && col[i] != Text("No"))
    ensures !IsTextual(col) ==> ToCells(r) == col
  {
    if IsTextual(col) then
      seq(|col|, i requires 0 <= i < |col| => YesNo(col[i]))
    else
      var r := seq(|col|, i requires 0 <= i < |col| => NumericValue(col[i]));
      assert forall i :: 0 <= i < |col| ==> !col[i].Text?;
      assert ToCells(r) == col;
      r
  }

  /** The coercion is idempotent: coercing a column that was already
      coerced gives the same values again. */
  lemma {:induction false} CoerceChurnIdempotent(col: seq<Cell>)
    ensures CoerceChurn(ToCells(CoerceChurn(col))) == CoerceChurn(col)
  {
    var once := CoerceChurn(col);
    var twice := CoerceChurn(ToCells(once));
    assert ToCells(twice) == ToCells(once);
    forall i | 0 <= i < |once|
      ensures twice[i] == once[i]
    {
      assert ToCells(twice)[i] == ToCells(once)[i];
      assert NumericValue(ToCell(twice[i])) == NumericValue(ToCell(once[i]));
    }
  }

  /** A churn value the aggregation can read: 0, 1 or missing. */
  predicate IsBinary(c: Cell) {
    c == Number(0) || c == Number(1) || c == Missing
  }

  predicate BinaryChurn(rows: seq<Row>) {
    forall r :: r in rows ==> IsBinary(r.isChurned)
  }

  /** The churn column holds no text: the state after loading. */
  predicate NumericChurn(rows: seq<Row>) {
    forall r :: r in rows ==> !r.isChurned.Text?
  }

  function ChurnColumn(rows: seq<Row>): (col: seq<Cell>)
    ensures |col| == |rows|
    ensures forall i :: 0 <= i < |rows| ==> col[i] == rows[i].isChurned
  {
    seq(|rows|, i requires 0 <= i < |rows| => rows[i].isChurned)
  }

  /** The rows with their churn cells replaced, every other field kept. */
  function WithChurn(rows: seq<Row>, col: seq<Cell>): (r: seq<Row>)
    requires |col| == |rows|
    ensures |r| == |rows|
    ensures ChurnColumn(r) == col
    ensures forall i :: 0 <= i < |r| ==> r[i] == rows[i].(isChurned := col[i])
  {
    seq(|rows|, i requires 0 <= i < |rows| => rows[i].(isChurned := col[i]))
  }

  /** The rows after the coercion: no text left in the churn column, only
      0, 1 or missing if the column was textual, and nothing changed if it
      was not. */
  lemma CoercedRows(rows: seq<Row>)
    ensures var after := WithChurn(rows, ToCells(CoerceChurn(ChurnColumn(rows))));
      && NumericChurn(after)
      && (IsTextual(ChurnColumn(rows)) ==> BinaryChurn(after))
      && (!IsTextual(ChurnColumn(rows)) ==> after == rows)
  {
    var col := ChurnColumn(rows);
    var coerced := CoerceChurn(col);
    var after := WithChurn(rows, ToCells(coerced));
    forall r | r in after
      ensures !r.isChurned.Text?
      ensures IsTextual(col) ==> IsBinary(r.isChurned)
    {
      var i :| 0 <= i < |after| && after[i] == r;
      assert r.isChurned == ToCell(coerced[i]);
    }
    if !IsTextual(col) {
      assert ToCells(coerced) == col;
    }
  }

  datatype LoadError = MissingColumn(name: string)

  const ChurnColumnName: string := "is_churned"

  /** A header spelled "Is Churned" normalises to the column name the
      script looks up. */
  lemma ChurnHeaderNormalises()
    ensures NormaliseName("Is Churned") == ChurnColumnName
  {
    StripFixed("Is Churned");
    LowerChurnHeader();
    ReplaceChurnHeader();
  }

  lemma LowerChurnHeader()
    ensures Lower("Is Churned") == "is churned"
  {
    var l := Lower("Is Churned");
    assert forall i :: 0 <= i < 10 ==> l[i] == "is churned"[i];
  }

  lemma ReplaceChurnHeader()
    ensures ReplaceSpaces("is churned") == ChurnColumnName
  {
    var r := ReplaceSpaces("is churned");
    assert forall i :: 0 <= i < 10 ==> r[i] == ChurnColumnName[i];
  }

  /** The data frame as the script holds it after `pd.read_csv`: its header
      row and its records. The loader rewrites both in place. */
  class Frame {
    var columns: seq<string>
    var rows: seq<Row>

    constructor (columns: seq<string>, rows: seq<Row>)
      ensures this.columns == columns && this.rows == rows
    {
      this.columns := columns;
      this.rows := rows;
    }

    /** dashboard.py:12-16. The header row is normalised first; looking up
        `is_churned` then fails (KeyError) if no header normalises to it;
        otherwise the churn column is coerced in place. */
    method Clean() returns (outcome: Outcome<LoadError>)
      modifies this
      ensures columns == NormaliseColumns(old(columns))
      ensures outcome == if ChurnColumnName in columns then Pass else Fail(MissingColumn(ChurnColumnName))
      ensures outcome.Fail? ==> rows == old(rows)
      ensures outcome.Pass? ==> rows == WithChurn(old(rows), ToCells(CoerceChurn(ChurnColumn(old(rows)))))
      ensures outcome.Pass? ==> NumericChurn(rows)
      ensures outcome.Pass? && IsTextual(ChurnColumn(old(rows))) ==> BinaryChurn(rows)
      ensures outcome.Pass? && !IsTextual(ChurnColumn(old(rows))) ==> rows == old(rows)
    {
      columns := NormaliseColumns(columns);
      if ChurnColumnName !in columns {
        return Fail(MissingColumn(ChurnColumnName));
      }
      CoercedRows(rows);
      rows := WithChurn(rows, ToCells(CoerceChurn(ChurnColumn(rows))));
      outcome := Pass;
    }
  }
}

=== FILE: string_order.dfy ===
/**
 * The order in which pandas' `groupby` reports string keys: Python's
 * comparison of `str` values, lexicographic by code point, a proper prefix
 * before its extensions.
 */
module StringOrder {

  /** `a < b` for Python strings. */
  predicate Below(a: string, b: string)
    decreases |a|
  {
    b != [] && (a == [] || a[0] < b[0] || (a[0] == b[0] && Below(a[1..], b[1..])))
  }

  lemma {:induction false} BelowIrreflexive(a: string)
    ensures !Below(a, a)
    decreases |a|
  {
    if a != [] {
      BelowIrreflexive(a[1..]);
    }
  }

  lemma {:induction false} BelowTransitive(a: string, b: string, c: string)
    requires Below(a, b) && Below(b, c)
    ensures Below(a, c)
    decreases |a|
  {
    if a != [] && a[0] == b[0] && b[0] == c[0] {
      BelowTransitive(a[1..], b[1..], c[1..]);
    }
  }

  lemma {:induction false} BelowTotal(a: string, b: string)
    requires a != b
    ensures Below(a, b) || Below(b, a)
    decreases |a|
  {
    if a != [] && b != [] && a[0] == b[0] {
      assert a == [a[0]] + a[1..] && b == [b[0]] + b[1..];
      BelowTotal(a[1..], b[1..]);
    }
  }

  /** Strictly increasing, hence free of duplicates. */
  predicate StrictlySorted(ks: seq<string>) {
    forall i, j :: 0 <= i < j < |ks| ==> Below(ks[i], ks[j])
  }

  lemma {:induction false} StrictlySortedDistinct(ks: seq<string>)
    requires StrictlySorted(ks)
    ensures forall i, j :: 0 <= i < j < |ks| ==> ks[i] != ks[j]
  {
    forall i, j | 0 <= i < j < |ks|
      ensures ks[i] != ks[j]
    {
      BelowIrreflexive(ks[i]);
    }
  }

  lemma ConsSorted(x: string, ks: seq<string>)
    requires StrictlySorted(ks)
    requires forall y :: y in ks ==> Below(x, y)
    ensures StrictlySorted([x] + ks)
  {
    var r := [x] + ks;
    forall i, j | 0 <= i < j < |r|
      ensures Below(r[i], r[j])
    {
      if i == 0 {
        assert r[j] == ks[j - 1];
      } else {
        assert r[i] == ks[i - 1] && r[j] == ks[j - 1];
      }
    }
  }

  /** Adds `k` to a strictly sorted sequence of keys, keeping it strictly
      sorted and without duplicates. */
  function Insert(k: string, ks: seq<string>): (r: seq<string>)
    requires StrictlySorted(ks)
    ensures StrictlySorted(r)
    ensures forall x :: x in r <==> x == k || x in ks
  {
    if ks == [] then [k]
    else if k == ks[0] then ks
    else if Below(k, ks[0]) then
      InsertFront(k, ks);
      [k] + ks
    else
      BelowTotal(k, ks[0]);
      var rest := Insert(k, ks[1..]);
      InsertBehind(k, ks, rest);
      [ks[0]] + rest
  }

  lemma InsertFront(k: string, ks: seq<string>)
    requires StrictlySorted(ks) && ks != [] && Below(k, ks[0])
    ensures StrictlySorted([k] + ks)
  {
    forall y | y in ks
      ensures Below(k, y)
    {
      var j :| 0 <= j < |ks| && ks[j] == y;
      if j > 0 {
        BelowTransitive(k, ks[0], y);
      }
    }
    ConsSorted(k, ks);
  }

  lemma InsertBehind(k: string, ks: seq<string>, rest: seq<string>)
    requires StrictlySorted(ks) && ks != [] && Below(ks[0], k)
    requires StrictlySorted(rest)
    requires forall x :: x in rest <==> x == k || x in ks[1..]
    ensures StrictlySorted([ks[0]] + rest)
  {
    forall y | y in rest
      ensures Below(ks[0], y)
    {
      if y != k {
        var j :| 0 <= j < |ks[1..]| && ks[1..][j] == y;
        assert ks[j + 1] == y;
      }
    }
    ConsSorted(ks[0], rest);
  }
}

=== FILE: wrappers.dfy ===
/** An option type and a pass/fail outcome, shared by the other modules. */
module Wrappers {

  /** A value that may be absent; `None` plays the part of pandas' NaN. */
  datatype Option<+T> = None | Some(value: T)

  /** The outcome of a step that either succeeds or fails with an error. */
  datatype Outcome<+E> = Pass | Fail(error: E)
}
